=== FILE: README.md ===
# PowerUp quote engine

A model of how the WAX and EOS PowerUp scripts turn the system contract's `powup.state`
row and a maximum payment into the object `calculateMaxFractions` returns: the NET and CPU
fractions to rent, the payment echoed back, and the actual cost. The first three of these
fields become the `net_frac`, `cpu_frac` and `max_payment` of the `powerup` action; the
actual cost is computed but not used.

The two `calculateMaxFractions` functions differ only in the currency suffix (" WAX" and
" EOS") and in how many decimals the actual cost has (8 and 4). The model is one engine parameterised by a
`ChainProfile`, with `Wax` and `Eos` as its two instances.

- `BondingCurve` (curve.dfy): the unit price of a market. It rises quadratically with
  utilization, from `min_price` when idle to `max_price` when full. Utilization is kept in
  1e16 fixed point.
- `Allocation` (allocation.dfy): a budget buys the floored fraction
  `floor(budget / (price * days) * 1e16)`. What that fraction costs is then recomputed.
- `Engine` (engine.dfy): the payment is split into a NET share and a CPU share (1% and 99%
  by default), each share is spent at its market's price, and the two costs are added up.
- `Text` (text.dfy): the JavaScript string operations involved. These are `replace` with a
  string pattern (the currency suffix is dropped), `toString` of an integer (the
  fractions) and `toFixed` (the cost). A small decimal reader, `ParseDecimal`, is the
  inverse against which the two renderings are proved.
- `Powerup` (powerup.dfy): reading the state row, the quote from strings to strings, and
  the empty-table check of `getPowerupState`.
- `Results` (results.dfy): `Option` and `Result`.

Numbers are exact reals, and `Math.floor` is `.Floor`. `parseFloat` is a parameter: a
reader from strings to `Option<real>`, where `None` stands for NaN. When a value is NaN,
or a market's price is zero (the scripts do not guard against that), the model spells the
outcome as JavaScript would. The affected fraction becomes "NaN", "Infinity" or
"-Infinity", and the actual cost becomes "NaN" followed by the suffix. The chain query of
`getPowerupState` is a parameter too: a function from the query to either the rows or a
transport error.

The scripts do not guard against a zero current price: they divide by zero and report
non-finite numbers. The model does the same (`Powerup.SpendShare`,
`Powerup.ZeroNetPriceQuote`). The numeric engine (`Engine.ComputeQuote`) is stated for
non-zero prices.

## Model

| member | source | states |
|---|---|---|
| BondingCurve.Price | powerup.js:48-49 | An idle market costs the floor price and a full one the ceiling price. A well-formed market's price lies between the two. |
| BondingCurve.PriceMonotone | powerup.js:48-49 | With floor not above ceiling, of two non-negative utilizations the higher never gives a lower price. |
| BondingCurve.PriceStrictlyIncreasing | powerup-eos.js:47-48 | With floor below ceiling, of two non-negative utilizations the higher gives a strictly higher price. |
| BondingCurve.PriceAtLeastFloor | powerup.js:48-49 | With floor not above ceiling, at any non-negative utilization the price is at least the floor price. |
| Allocation.Fraction | powerup.js:56-57 | A zero budget buys fraction 0. A non-negative budget at a positive price buys a non-negative fraction. |
| Allocation.FractionIsGreatestAffordable | powerup.js:56-60 | When price times days is positive: for every integer k, k costs at most the budget exactly when k is at most the floored fraction. The fraction is the greatest affordable one. |
| Allocation.CostWithinBudget | powerup.js:56-60 | When price times days is positive, the floored fraction's recomputed cost never exceeds the budget. |
| Allocation.ShortfallBelowOneUnit | powerup-eos.js:55-59 | When price times days is positive, the unspent remainder is less than the cost of one 1e16-th of capacity. |
| Allocation.FractionNonIncreasingInPrice | powerup.js:56-57 | For positive days and two positive prices, the dearer never buys a larger fraction of a fixed non-negative budget. |
| Allocation.FractionMonotoneInBudget | powerup.js:56-57 | When price times days is positive, a larger budget never buys a smaller fraction. |
| Allocation.Cost | powerup.js:59-60 | The cost recomputed from a floored fraction: the empty fraction costs nothing, and a non-negative fraction at a non-negative price for non-negative days never costs a negative amount. |
| Engine.Buy | powerup.js:53-60 | A zero share buys fraction 0 at cost 0. At a positive price the cost is within the share, and a non-negative share gives a non-negative fraction and cost. |
| Engine.BuyIsGreatestAffordable | powerup.js:56-60 | At a positive price, a purchase buys exactly the affordable fractions up to its own, and less than one unit's cost of the share is left unspent. |
| Engine.QuoteFor | powerup-eos.js:55-60 | For non-zero prices: zero shares give the zero quote. At positive prices each cost is within its share and the total within both shares. Non-negative shares give non-negative fractions and total. |
| Engine.ComputeQuote | powerup.js:51-61 | For non-zero prices: a zero payment gives the zero quote. At positive prices each cost is within the payment times its ratio. With a split of at most the whole, the total lies between 0 and the payment. |
| Engine.QuoteWithinPayment | powerup.js:52-61 | At positive prices, a non-negative payment with a split of at most the whole buys non-negative fractions. Their total cost is between 0 and the payment. |
| Engine.SharesWithinPayment | powerup.js:56-61 | At positive prices, non-negative shares adding up to at most a total buy non-negative fractions whose total cost is at most that total. |
| Engine.SplitWithinWhole | powerup.js:52-54 | Non-negative ratios summing to at most 1 split a non-negative payment into non-negative budgets. The budgets add up to at most the payment. |
| Engine.QuoteShortfall | powerup.js:53-61 | At positive prices, the two budgets exceed the total cost by less than one 1e16-th of the two prices together. |
| Engine.BuyNonIncreasingInUtilization | powerup.js:48-57 | For a market with a positive floor not above its ceiling and a non-negative share, of two non-negative utilizations the higher never sells a larger fraction. |
| Engine.QuoteNonIncreasingInCpuUtilization | powerup.js:49-57 | With a non-zero NET price, a CPU market whose positive floor is not above its ceiling, a non-negative payment and a non-negative CPU ratio: raising a non-negative CPU utilization never raises the CPU fraction and leaves the NET purchase unchanged. |
| Engine.HalfUtilizedExample | powerup.js:40-61 | A worked quote on markets at half utilization: the exact fractions bought and a total within the payment. |
| Powerup.GetPowerupState | powerup.js:14-34 | Succeeds exactly when the `powup.state` query succeeds with at least one row, and then returns the first row. A failed query is passed on, and an empty table is an error. |
| Powerup.ReadResource | powerup.js:40-46 | A market is readable exactly when both prices (suffix removed) and the utilization are readable. |
| Powerup.ReadAmount | powerup.js:38 | An amount without the currency suffix is read as it is. Otherwise the first occurrence of the suffix is cut out and the text around it is read. |
| Powerup.ReadMarket | powerup-eos.js:39-45 | The state row is readable exactly when both of its markets are, and then it holds those two markets. |
| Powerup.ReadRenderedResource | powerup-eos.js:39-45 | A row written with the profile's decimals and suffix reads back as its rounded prices and its utilization. |
| Powerup.ReadRenderedAmount | powerup.js:38 | An amount rendered with `toFixed` and the suffix reads back, suffix removed, as the rounded amount. |
| Powerup.Spend | powerup.js:53-60 | A dimension is a finite purchase exactly when payment and market are readable and the price is non-zero. An unreadable payment or market gives the fraction "NaN"; otherwise a non-finite fraction is "NaN", "Infinity" or "-Infinity". |
| Powerup.SpendShare | powerup.js:56-57 | Dividing by a zero price gives "NaN" for a zero share, and otherwise the infinity of the share's sign. A non-zero price gives a finite purchase. |
| Powerup.DivisionByZero | powerup.js:56-57 | A share divided by a zero price is spelled "NaN" exactly when the share is 0, "Infinity" exactly when it is positive and "-Infinity" exactly when it is negative. |
| Powerup.FracText | powerup.js:64-65 | A finite fraction's string reads back as the fraction. A non-finite one keeps its JavaScript spelling. |
| Powerup.CostText | powerup.js:67 | The cost string ends in the suffix. Before it comes a numeral that reads back as the rounded total of two finite costs, or "NaN" when either is not finite. |
| Powerup.Render | powerup.js:63-68 | The returned object echoes the payment. Finite fractions read back as themselves, non-finite ones keep their spelling, and a non-finite dimension makes the cost "NaN". |
| Powerup.CalculateMaxFractions | powerup.js:37-68 | The payment string is echoed unchanged. An unreadable payment makes both fractions and the cost NaN. |
| Powerup.CalculateWithDefaults | powerup.js:37 | With the default ratios the payment string is still echoed unchanged, and an unreadable payment still makes every number NaN. |
| Powerup.QuoteDimensions | powerup.js:38-60 | When payment and market read as numbers and neither price is zero, both dimensions are the engine quote's purchases. |
| Powerup.QuoteText | powerup.js:63-68 | The returned strings are the engine quote: fractions via `toString`, and the total via `toFixed` plus the suffix. |
| Powerup.QuoteReadsBack | powerup.js:63-67 | The fraction strings read back as the quote's fractions exactly. The cost string reads back as the total rounded to the profile's decimals. |
| Powerup.RenderReadsBack | powerup-eos.js:62-66 | Rendered purchases read back as their fractions and their rounded total. |
| Powerup.ActualCostWithinMaxPayment | powerup-eos.js:50-66 | The conditions are positive prices, a split of at most the whole, and a payment on the profile's decimal grid. The computed actual cost then reads back as an amount between 0 and the payment. |
| Powerup.DefaultCostWithinMaxPayment | powerup.js:37-67 | For either script with the default 99%/1% split, positive prices and a payment on the profile's decimal grid, the computed actual cost reads back as an amount between 0 and the payment. |
| Powerup.ZeroPaymentQuote | powerup.js:51-67 | A zero payment is not rejected. Both fractions are "0" and the cost is zero with the profile's decimals. |
| Powerup.ZeroNetPriceQuote | powerup.js:48-67 | A zero NET price is not guarded. The NET fraction is "Infinity", "-Infinity" or "NaN" by the sign of its share, and the cost is "NaN". |
| Powerup.UnreadableNetQuote | powerup.js:40-67 | An unreadable NET market makes the NET fraction and the cost NaN. The CPU fraction is the same as with any other NET row. |
| Powerup.UnreadableCpuQuote | powerup.js:40-67 | An unreadable CPU market makes the CPU fraction and the cost NaN. The NET fraction is the same as with any other CPU row. |
| Powerup.ProfilesSeparable | powerup-eos.js:42-45 | The suffixes " WAX" and " EOS" cannot be confused with part of a number. |
| Powerup.DefaultSplitValid | powerup.js:37 | The default 99% CPU and 1% NET split spends at most the whole payment. |
| Text.IndexOf | powerup.js:38 | `indexOf` gives the least index where the pattern occurs, or -1 exactly when it occurs nowhere. |
| Text.RemoveFirst | powerup.js:43-46 | `replace(unit, '')` cuts out the first occurrence only, and leaves a string without one unchanged. |
| Text.RemoveUnitSuffix | powerup.js:43-46 | When the suffix cannot start inside the amount, removing it from `amount + unit` gives the amount back. |
| Text.IntToStringRoundTrip | powerup.js:64-65 | The decimal rendering of an integer fraction reads back as that integer. |
| Text.IntToStringShape | powerup.js:64-65 | `toString` of an integer fraction is a "-" exactly for a negative fraction, followed by at least one digit and nothing else. The digits begin with 0 only when the fraction is 0. |
| Text.NearestHalfUp | powerup.js:67 | The rounding of `toFixed` picks a nearest integer, the larger one on a tie. |
| Text.ToFixedRoundTrip | powerup.js:67 | `x.toFixed(f)` reads back as x rounded to f decimals. |
| Text.ToFixed | powerup.js:67 | `x.toFixed(f)` starts with "-" exactly when x is negative. |
| Text.ToFixedShape | powerup-eos.js:66 | `x.toFixed(f)` is a "-" exactly for negative x, then at least one digit, then a point and exactly f digits (digits only when f is 0). The integer part begins with 0 only when it is exactly "0". |
| Text.ToFixedNumeral | powerup-eos.js:66 | A `toFixed` rendering consists only of digits, a point and a minus sign. |
| Text.FixedValueNear | powerup.js:67 | The amount `x.toFixed(f)` denotes is within half a step of the last decimal (0.5 / 10^f) of x. |
| Text.ZeroToFixed | powerup.js:67 | Zero renders as "0", or as "0." followed by f zeros. |
| Text.FixedValueWithinGrid | powerup-eos.js:66 | Rounding to f decimals never carries a non-negative amount past a value on the f-decimal grid that is at least the amount. |

## Left out

- Chain access: the RPC client, key handling and signing, and `api.transact` (powerup.js:1-12, 80-100). The table query is a parameter of `GetPowerupState`.
- `executePowerup` (powerup.js:71-112): it only chains the two modelled functions with a hard-coded payment and submits the action. The explorer link, console logging and printing of `error.json` are output only.
- The `actual_cost` field: `executePowerup` never reads or prints it, and the action's data (powerup.js:88-95, powerup-eos.js:87-94) does not carry it. `Powerup.ActualCostWithinMaxPayment` and `Powerup.DefaultCostWithinMaxPayment` therefore bound a value the scripts compute but never use.
- Logging in `getPowerupState` (powerup.js:31): the error is rethrown unchanged, as modelled.
- IEEE-754 doubles: every quantity is an exact real. Rounding in the divisions, the products and `Math.pow`, and the loss of precision of utilizations above 2^53, are not modelled.
- `parseFloat`: its grammar is a parameter. The round-trip lemmas use the decimal reader `Text.ParseDecimal`, which accepts only plain decimal numerals.
- Infinite amounts: `parseFloat` returns Infinity or -Infinity for "Infinity" or "1e999", and `Option<real>` has no value for them. A reader that meets such text must return `None` (NaN) or a finite real, so the quotes for an infinite payment or price are not modelled.
- Text.IntToStringRoundTrip: covers `toString` only for the plain decimal form. The exponent form JavaScript uses from 1e21 up is not modelled.
- Text.ToFixedRoundTrip: covers `toFixed` only for |x| < 1e21. Above that JavaScript falls back to `toString`.
- Engine.ComputeQuote: requires both current prices to be non-zero. The zero-price path of the scripts is modelled at the string level (`Powerup.SpendShare`, `Powerup.ZeroNetPriceQuote`).
- Powerup.ActualCostWithinMaxPayment: stated for payments on the profile's decimal grid (the form the action's amounts take), positive prices and a split of at most the whole. For an off-grid payment, rounding may give a cost just above it.
- Powerup.DefaultCostWithinMaxPayment: carries the same restriction to payments on the profile's decimal grid, for the same reason.
- Text.IntToStringShape: describes only the plain decimal form, as Text.IntToStringRoundTrip does.
- Text.ToFixed: models `toFixed` only for |x| < 1e21, as Text.ToFixedRoundTrip does.
- The ratios are plain reals supplied by the caller. The scripts check neither their sign nor their sum, and neither does the model, except where a property needs `ValidSplit`.

=== FILE: allocation.dfy ===
/**
 Turning a budget share into a purchasable fraction of market capacity. The fraction is
 expressed in the same 1e16 fixed point as utilization and is floored, so that what it
 actually costs never exceeds the share; the cost is then recomputed from the floored
 fraction.
 */
module Allocation {
  import opened BondingCurve

  /** The fraction, in 1e16 units, that `budget` buys at `price` per whole capacity per day
      for `days` days: floor(budget / (price * days) * 1e16). */
  function Fraction(budget: real, price: real, days: real): (frac: int)
    requires price * days != 0.0
    ensures budget == 0.0 ==> frac == 0
    ensures budget >= 0.0 && price * days > 0.0 ==> frac >= 0
  {
    QuotientNonNegative(budget, price * days);
    ((budget / (price * days)) * Scale).Floor
  }

  /** What the fraction `frac` (1e16 units) costs at `price` for `days` days: nothing for
      the empty fraction, never a negative amount for a fraction bought at a non-negative
      price. */
  function Cost(frac: int, price: real, days: real): (c: real)
    ensures frac == 0 ==> c == 0.0
    ensures frac >= 0 && price >= 0.0 && days >= 0.0 ==> c >= 0.0
  {
    CostNonNegative(frac as real / Scale, price, days);
    (frac as real / Scale) * price * days
  }

  lemma CostNonNegative(share: real, price: real, days: real)
    ensures share >= 0.0 && price >= 0.0 && days >= 0.0 ==> share * price * days >= 0.0
  {
    if share >= 0.0 && price >= 0.0 && days >= 0.0 {
      MulNonNegative(share, price);
      MulNonNegative(share * price, days);
    }
  }

  lemma QuotientNonNegative(a: real, q: real)
    requires q != 0.0
    ensures a >= 0.0 && q > 0.0 ==> a / q >= 0.0
  {
    if a >= 0.0 && q > 0.0 {
      var d := a / q;
      assert d * q == a;
    }
  }

  /** The cost is the fraction's share of `price * days`. */
  lemma CostIsShare(frac: int, price: real, days: real)
    ensures Cost(frac, price, days) == (frac as real) * (price * days) / Scale
  {
  }

  /** With a positive per-unit price, `k` is affordable exactly when it does not exceed the
      exact (unfloored) quotient. */
  lemma AffordableIffWithinQuotient(k: int, budget: real, perUnit: real)
    requires perUnit > 0.0
    ensures (k as real) * perUnit / Scale <= budget <==> k as real <= (budget / perUnit) * Scale
  {
    var kk, y := k as real, (budget / perUnit) * Scale;
    QuotientTimesDivisor(budget * Scale, perUnit);
    assert y * perUnit == budget * Scale;
    WithinScaled(kk * perUnit, budget);
    OrderByPositive(kk, y, perUnit);
  }

  lemma OrderByPositive(a: real, b: real, q: real)
    requires q > 0.0
    ensures a <= b <==> a * q <= b * q
  {
    if a <= b {
      MulNonNegative(b - a, q);
    } else {
      MulPositive(a - b, q);
    }
    Distribute(b, a, q);
  }

  lemma QuotientTimesDivisor(a: real, q: real)
    requires q > 0.0
    ensures (a / q) * q == a
  {
  }

  lemma WithinScaled(c: real, b: real)
    ensures c / Scale <= b <==> c <= b * Scale
  {
  }

  lemma Distribute(a: real, b: real, q: real)
    ensures (a - b) * q == a * q - b * q
  {
  }

  /** The floored fraction is the greatest affordable one: a fraction's cost stays within
      the budget exactly when it is at most Fraction(budget, price, days). */
  lemma FractionIsGreatestAffordable(budget: real, price: real, days: real, k: int)
    requires price * days > 0.0
    ensures Cost(k, price, days) <= budget <==> k <= Fraction(budget, price, days)
  {
    CostIsShare(k, price, days);
    AffordableIffWithinQuotient(k, budget, price * days);
  }

  /** Flooring never overspends: the floored fraction costs at most the budget. */
  lemma CostWithinBudget(budget: real, price: real, days: real)
    requires price * days > 0.0
    ensures Cost(Fraction(budget, price, days), price, days) <= budget
  {
    FractionIsGreatestAffordable(budget, price, days, Fraction(budget, price, days));
  }

  /** Flooring leaves less than one fixed-point unit's cost unspent. */
  lemma ShortfallBelowOneUnit(budget: real, price: real, days: real)
    requires price * days > 0.0
    ensures budget - Cost(Fraction(budget, price, days), price, days) < price * days / Scale
  {
    var frac := Fraction(budget, price, days);
    FractionIsGreatestAffordable(budget, price, days, frac + 1);
    CostIsShare(frac, price, days);
    CostIsShare(frac + 1, price, days);
    assert (frac + 1) as real * (price * days) == frac as real * (price * days) + price * days;
  }

  /** For a fixed non-negative budget, a higher price never buys a larger fraction. */
  lemma FractionNonIncreasingInPrice(budget: real, cheaper: real, dearer: real, days: real)
    requires days > 0.0 && 0.0 < cheaper <= dearer && budget >= 0.0
    ensures cheaper * days > 0.0 && dearer * days > 0.0
    ensures Fraction(budget, dearer, days) <= Fraction(budget, cheaper, days)
  {
    MulPositive(cheaper, days);
    MulPositive(dearer, days);
    var frac := Fraction(budget, dearer, days);
    CostWithinBudget(budget, dearer, days);
    CostIsShare(frac, cheaper, days);
    CostIsShare(frac, dearer, days);
    MulNonNegative(dearer - cheaper, days);
    MulNonNegative(frac as real, dearer * days - cheaper * days);
    assert frac as real * (cheaper * days) <= frac as real * (dearer * days);
    FractionIsGreatestAffordable(budget, cheaper, days, frac);
  }

  /** A larger budget never buys a smaller fraction. */
  lemma FractionMonotoneInBudget(smaller: real, larger: real, price: real, days: real)
    requires price * days > 0.0 && smaller <= larger
    ensures Fraction(smaller, price, days) <= Fraction(larger, price, days)
  {
    var frac := Fraction(smaller, price, days);
    CostWithinBudget(smaller, price, days);
    FractionIsGreatestAffordable(larger, price, days, frac);
  }
}

=== FILE: curve.dfy ===
/**
 The PowerUp market's price curve. Each resource (NET, CPU) has a floor price `min_price`,
 a ceiling price `max_price` and an `adjusted_utilization` in fixed point, where 1e16
 stands for the whole market capacity. The current unit price rises quadratically with
 utilization from the floor to the ceiling.
 */
module BondingCurve {

  /** Fixed-point scale of utilizations and of purchased fractions: 1e16 is 100%. */
  const Scale: real := 10000000000000000.0

  /** One resource's pricing state, amounts already parsed. */
  datatype Resource = Resource(minPrice: real, maxPrice: real, adjustedUtilization: real)

  /** A resource in the state the chain maintains: floor not above ceiling, utilization
      between empty and full. */
  predicate WellFormed(r: Resource)
  {
    r.minPrice <= r.maxPrice && 0.0 <= r.adjustedUtilization <= Scale
  }

  /** Utilization as a plain fraction of capacity. */
  function Utilization(r: Resource): real
  {
    r.adjustedUtilization / Scale
  }

  /** The current unit price: min + (max - min) * u^2. Idle it costs the floor price, full it
      costs the ceiling price, and in between it stays within the two. */
  function Price(r: Resource): (p: real)
    ensures r.adjustedUtilization == 0.0 ==> p == r.minPrice
    ensures r.adjustedUtilization == Scale ==> p == r.maxPrice
    ensures WellFormed(r) ==> r.minPrice <= p <= r.maxPrice
  {
    var u := Utilization(r);
    assert WellFormed(r) ==> 0.0 <= u <= 1.0;
    CurveWithinBounds(r.minPrice, r.maxPrice, u);
    r.minPrice + (r.maxPrice - r.minPrice) * Square(u)
  }

  /** `Math.pow(u, 2)`. */
  function Square(u: real): real
  {
    u * u
  }

  lemma MulNonNegative(a: real, b: real)
    requires a >= 0.0 && b >= 0.0
    ensures a * b >= 0.0
  {
  }

  lemma MulPositive(a: real, b: real)
    requires a > 0.0 && b > 0.0
    ensures a * b > 0.0
  {
  }

  lemma CurveWithinBounds(lo: real, hi: real, u: real)
    ensures lo <= hi && 0.0 <= u <= 1.0 ==> lo <= lo + (hi - lo) * Square(u) <= hi
  {
    if lo <= hi && 0.0 <= u <= 1.0 {
      MulNonNegative(u, 1.0 - u);
      assert 0.0 <= Square(u) <= 1.0;
      MulNonNegative(hi - lo, Square(u));
      MulNonNegative(hi - lo, 1.0 - Square(u));
    }
  }

  lemma SquareMonotone(a: real, b: real)
    requires 0.0 <= a <= b
    ensures Square(a) <= Square(b)
  {
    MulNonNegative(b - a, a);
    MulNonNegative(b - a, b);
    assert Square(b) - Square(a) == (b - a) * a + (b - a) * b;
  }

  lemma SquareIncreasing(a: real, b: real)
    requires 0.0 <= a < b
    ensures Square(a) < Square(b)
  {
    MulNonNegative(b - a, a);
    MulPositive(b - a, b);
    assert Square(b) - Square(a) == (b - a) * a + (b - a) * b;
    assert (b - a) * a + (b - a) * b > 0.0;
  }

  /** The same resource at another utilization. */
  function AtUtilization(r: Resource, adjustedUtilization: real): Resource
  {
    r.(adjustedUtilization := adjustedUtilization)
  }

  /** Price never falls as utilization grows (floor not above ceiling). */
  lemma PriceMonotone(r: Resource, lower: real, higher: real)
    requires r.minPrice <= r.maxPrice
    requires 0.0 <= lower <= higher
    ensures Price(AtUtilization(r, lower)) <= Price(AtUtilization(r, higher))
  {
    var u1, u2 := Utilization(AtUtilization(r, lower)), Utilization(AtUtilization(r, higher));
    assert 0.0 <= u1 <= u2;
    SquareMonotone(u1, u2);
    var spread := r.maxPrice - r.minPrice;
    MulNonNegative(spread, Square(u2) - Square(u1));
    assert spread * Square(u2) == spread * Square(u1) + spread * (Square(u2) - Square(u1));
  }

  /** Price strictly rises with utilization when the ceiling is above the floor. */
  lemma PriceStrictlyIncreasing(r: Resource, lower: real, higher: real)
    requires r.minPrice < r.maxPrice
    requires 0.0 <= lower < higher
    ensures Price(AtUtilization(r, lower)) < Price(AtUtilization(r, higher))
  {
    var u1, u2 := Utilization(AtUtilization(r, lower)), Utilization(AtUtilization(r, higher));
    assert 0.0 <= u1 < u2;
    SquareIncreasing(u1, u2);
    var spread, gap := r.maxPrice - r.minPrice, Square(u2) - Square(u1);
    MulPositive(spread, gap);
    CurveStep(r.minPrice, spread, Square(u1), gap);
    assert Square(u2) == Square(u1) + gap;
    assert Price(AtUtilization(r, higher)) == r.minPrice + spread * Square(u2);
    assert Price(AtUtilization(r, higher)) == r.minPrice + spread * (Square(u1) + gap);
    assert Price(AtUtilization(r, lower)) == r.minPrice + spread * Square(u1);
    assert spread * gap > 0.0;
  }

  lemma CurveStep(lo: real, spread: real, w: real, gap: real)
    ensures lo + spread * (w + gap) == lo + spread * w + spread * gap
  {
  }

  /** At any non-negative utilization the price is at least the floor price. */
  lemma PriceAtLeastFloor(r: Resource)
    requires r.minPrice <= r.maxPrice && r.adjustedUtilization >= 0.0
    ensures Price(r) >= r.minPrice
  {
    PriceMonotone(r, 0.0, r.adjustedUtilization);
    assert AtUtilization(r, r.adjustedUtilization) == r;
  }
}

=== FILE: engine.dfy ===
/**
 The numeric core of a PowerUp quote: split the maximum payment between NET and CPU,
 buy the largest fraction of each market the share affords at the current price, and
 price what was actually bought. All amounts here are already parsed.
 */
module Engine {
  import opened BondingCurve
  import opened Allocation

  /** Rental period of every quote, in days. */
  const Days: real := 1.0

  /** Default share of the payment spent on CPU. */
  const DefaultCpuRatio: real := 0.99

  /** Default share of the payment spent on NET. */
  const DefaultNetRatio: real := 0.01

  /** The two markets of the `powup.state` row. */
  datatype Market = Market(net: Resource, cpu: Resource)

  /** A purchase in one market: the fraction bought (1e16 units) and what it costs. */
  datatype Purchase = Purchase(frac: int, cost: real)

  /** Both purchases of a quote. */
  datatype Quote = Quote(net: Purchase, cpu: Purchase)
  {
    /** What the whole quote costs. */
    function TotalCost(): real
    {
      net.cost + cpu.cost
    }
  }

  /** Prices the scripts divide by: neither may be zero. */
  predicate Priced(m: Market)
  {
    Price(m.net) != 0.0 && Price(m.cpu) != 0.0
  }

  /** Both prices positive, the case in which flooring keeps every purchase within budget. */
  predicate PositivelyPriced(m: Market)
  {
    Price(m.net) > 0.0 && Price(m.cpu) > 0.0
  }

  /** Payment split the scripts assume: non-negative shares adding up to at most the whole. */
  predicate ValidSplit(cpuRatio: real, netRatio: real)
  {
    0.0 <= cpuRatio && 0.0 <= netRatio && cpuRatio + netRatio <= 1.0
  }

  /** Spend `share` for one day at unit price `price`: a zero share buys nothing and costs
      nothing, and at a positive price a non-negative share buys a non-negative fraction at
      a non-negative cost that never exceeds the share. */
  function Buy(price: real, share: real): (p: Purchase)
    requires price != 0.0
    ensures share == 0.0 ==> p.frac == 0 && p.cost == 0.0
    ensures price > 0.0 && share >= 0.0 ==> p.frac >= 0 && p.cost >= 0.0
    ensures price > 0.0 ==> p.cost <= share
  {
    PurchaseWithinShare(price, share);
    Purchase(Fraction(share, price, Days), Cost(Fraction(share, price, Days), price, Days))
  }

  lemma PurchaseWithinShare(price: real, share: real)
    requires price != 0.0
    ensures price > 0.0 ==> Cost(Fraction(share, price, Days), price, Days) <= share
    ensures price > 0.0 && share >= 0.0 ==> Cost(Fraction(share, price, Days), price, Days) >= 0.0
  {
    if price > 0.0 {
      var frac := Fraction(share, price, Days);
      CostWithinBudget(share, price, Days);
      if share >= 0.0 {
        MulNonNegative(frac as real / Scale, price);
      }
    }
  }

  /** The purchase is the greatest affordable one: any fraction k costs at most the share
      exactly when k does not exceed what was bought, and what was bought leaves less than
      the cost of one 1e16-th of the market unspent. */
  lemma BuyIsGreatestAffordable(price: real, share: real)
    requires price > 0.0
    ensures forall k: int :: Cost(k, price, Days) <= share <==> k <= Buy(price, share).frac
    ensures share - Buy(price, share).cost < price / Scale
  {
    forall k: int
      ensures Cost(k, price, Days) <= share <==> k <= Buy(price, share).frac
    {
      FractionIsGreatestAffordable(share, price, Days, k);
    }
    ShortfallBelowOneUnit(share, price, Days);
  }

  /** The quote that spends `netShare` on NET at `netPrice` and `cpuShare` on CPU at
      `cpuPrice`: at positive prices each purchase stays within its share, and so the
      whole within the two shares together. */
  function QuoteFor(netPrice: real, cpuPrice: real, netShare: real, cpuShare: real): (q: Quote)
    requires netPrice != 0.0 && cpuPrice != 0.0
    ensures netShare == 0.0 && cpuShare == 0.0 ==> q == Quote(Purchase(0, 0.0), Purchase(0, 0.0))
    ensures netPrice > 0.0 && cpuPrice > 0.0 ==>
      q.net.cost <= netShare && q.cpu.cost <= cpuShare && q.TotalCost() <= netShare + cpuShare
    ensures netPrice > 0.0 && cpuPrice > 0.0 && netShare >= 0.0 && cpuShare >= 0.0 ==>
      q.net.frac >= 0 && q.cpu.frac >= 0 && 0.0 <= q.TotalCost()
  {
    Quote(Buy(netPrice, netShare), Buy(cpuPrice, cpuShare))
  }

  /** The quote for `maxPayment` in market `m`, spending `netRatio` of it on NET and
      `cpuRatio` on CPU, each at that market's current price. */
  function ComputeQuote(m: Market, maxPayment: real, cpuRatio: real, netRatio: real): (q: Quote)
    requires Priced(m)
    ensures maxPayment == 0.0 ==> q == Quote(Purchase(0, 0.0), Purchase(0, 0.0))
    ensures PositivelyPriced(m) ==>
      q.net.cost <= maxPayment * netRatio && q.cpu.cost <= maxPayment * cpuRatio
    ensures PositivelyPriced(m) && maxPayment >= 0.0 && ValidSplit(cpuRatio, netRatio) ==>
      q.net.frac >= 0 && q.cpu.frac >= 0 && 0.0 <= q.TotalCost() <= maxPayment
  {
    QuoteWithinPayment(Price(m.net), Price(m.cpu), maxPayment, cpuRatio, netRatio);
    QuoteFor(Price(m.net), Price(m.cpu), maxPayment * netRatio, maxPayment * cpuRatio)
  }

  /** At positive prices, a non-negative payment split into shares that add up to at most
      the whole buys non-negative fractions for at most the payment. */
  lemma QuoteWithinPayment(netPrice: real, cpuPrice: real, maxPayment: real, cpuRatio: real, netRatio: real)
    requires netPrice != 0.0 && cpuPrice != 0.0
    ensures netPrice > 0.0 && cpuPrice > 0.0 && maxPayment >= 0.0 && ValidSplit(cpuRatio, netRatio) ==>
      var q := QuoteFor(netPrice, cpuPrice, maxPayment * netRatio, maxPayment * cpuRatio);
      q.net.frac >= 0 && q.cpu.frac >= 0 && 0.0 <= q.TotalCost() <= maxPayment
  {
    if netPrice > 0.0 && cpuPrice > 0.0 && maxPayment >= 0.0 && ValidSplit(cpuRatio, netRatio) {
      SplitWithinWhole(maxPayment, cpuRatio, netRatio);
      SharesWithinPayment(netPrice, cpuPrice, maxPayment * netRatio, maxPayment * cpuRatio, maxPayment);
    }
  }

  /** At positive prices, non-negative shares that add up to at most `total` buy
      non-negative fractions for at most `total`. */
  lemma SharesWithinPayment(netPrice: real, cpuPrice: real, netShare: real, cpuShare: real, total: real)
    requires netPrice > 0.0 && cpuPrice > 0.0
    requires 0.0 <= netShare && 0.0 <= cpuShare && netShare + cpuShare <= total
    ensures var q := QuoteFor(netPrice, cpuPrice, netShare, cpuShare);
      q.net.frac >= 0 && q.cpu.frac >= 0 && 0.0 <= q.TotalCost() <= total
  {
  }

  /** A quote is the two purchases at the market's current prices. */
  lemma ComputeQuoteBuys(m: Market, maxPayment: real, cpuRatio: real, netRatio: real)
    requires Priced(m)
    ensures ComputeQuote(m, maxPayment, cpuRatio, netRatio)
      == Quote(Buy(Price(m.net), maxPayment * netRatio), Buy(Price(m.cpu), maxPayment * cpuRatio))
  {
  }

  /** Non-negative shares of a non-negative amount that add up to at most one are
      themselves non-negative and together at most the amount. */
  lemma SplitWithinWhole(total: real, cpuRatio: real, netRatio: real)
    requires total >= 0.0 && ValidSplit(cpuRatio, netRatio)
    ensures total * netRatio >= 0.0 && total * cpuRatio >= 0.0
    ensures total * netRatio + total * cpuRatio <= total
  {
    MulNonNegative(total, netRatio);
    MulNonNegative(total, cpuRatio);
    MulNonNegative(total, 1.0 - cpuRatio - netRatio);
    assert total * netRatio + total * cpuRatio + total * (1.0 - cpuRatio - netRatio) == total;
  }

  /** Flooring leaves, in the two markets together, less than one 1e16-th of each market's
      price unspent of the two shares. */
  lemma QuoteShortfall(m: Market, maxPayment: real, cpuRatio: real, netRatio: real)
    requires PositivelyPriced(m)
    ensures maxPayment * netRatio + maxPayment * cpuRatio
              - ComputeQuote(m, maxPayment, cpuRatio, netRatio).TotalCost()
            < (Price(m.net) + Price(m.cpu)) / Scale
  {
    BuyIsGreatestAffordable(Price(m.net), maxPayment * netRatio);
    BuyIsGreatestAffordable(Price(m.cpu), maxPayment * cpuRatio);
  }

  /** Holding the price bounds and the share fixed, a more utilized market never sells a
      larger fraction (positive floor price, floor not above ceiling). */
  lemma BuyNonIncreasingInUtilization(r: Resource, lower: real, higher: real, share: real)
    requires 0.0 < r.minPrice <= r.maxPrice
    requires 0.0 <= lower <= higher && share >= 0.0
    ensures Price(AtUtilization(r, lower)) > 0.0 && Price(AtUtilization(r, higher)) > 0.0
    ensures Buy(Price(AtUtilization(r, higher)), share).frac <= Buy(Price(AtUtilization(r, lower)), share).frac
  {
    PriceAtLeastFloor(AtUtilization(r, lower));
    PriceAtLeastFloor(AtUtilization(r, higher));
    PriceMonotone(r, lower, higher);
    FractionNonIncreasingInPrice(share, Price(AtUtilization(r, lower)),
                                 Price(AtUtilization(r, higher)), Days);
  }

  /** A more utilized CPU market never yields a larger CPU fraction, and leaves the NET
      purchase as it was. */
  lemma QuoteNonIncreasingInCpuUtilization(m: Market, lower: real, higher: real,
                                           maxPayment: real, cpuRatio: real, netRatio: real)
    requires Price(m.net) != 0.0
    requires 0.0 < m.cpu.minPrice <= m.cpu.maxPrice
    requires 0.0 <= lower <= higher && maxPayment >= 0.0 && cpuRatio >= 0.0
    ensures Priced(Market(m.net, AtUtilization(m.cpu, lower)))
    ensures Priced(Market(m.net, AtUtilization(m.cpu, higher)))
    ensures
      var low := ComputeQuote(Market(m.net, AtUtilization(m.cpu, lower)), maxPayment, cpuRatio, netRatio);
      var high := ComputeQuote(Market(m.net, AtUtilization(m.cpu, higher)), maxPayment, cpuRatio, netRatio);
      high.cpu.frac <= low.cpu.frac && high.net == low.net
  {
    MulNonNegative(maxPayment, cpuRatio);
    BuyNonIncreasingInUtilization(m.cpu, lower, higher, maxPayment * cpuRatio);
  }

  /** A worked quote: NET priced 0.0001..0.001 and CPU 0.005..0.05, both half utilized,
      with a payment of 1 split by the default ratios. */
  lemma HalfUtilizedExample()
    ensures
      var m := Market(Resource(0.0001, 0.001, 5000000000000000.0),
                      Resource(0.005, 0.05, 5000000000000000.0));
      Price(m.net) == 0.000325 && Price(m.cpu) == 0.01625 &&
      var q := ComputeQuote(m, 1.0, DefaultCpuRatio, DefaultNetRatio);
      q.net.frac == 307692307692307692 && q.cpu.frac == 609230769230769230 &&
      q.TotalCost() <= 1.0
  {
    var m := Market(Resource(0.0001, 0.001, 5000000000000000.0),
                    Resource(0.005, 0.05, 5000000000000000.0));
    assert Utilization(m.net) == 0.5;
    assert Price(m.net) == 0.000325;
    assert Price(m.cpu) == 0.01625;
    var q := ComputeQuote(m, 1.0, DefaultCpuRatio, DefaultNetRatio);
    assert Fraction(0.01, 0.000325, Days) == 307692307692307692;
    assert Fraction(0.99, 0.01625, Days) == 609230769230769230;
  }
}

=== FILE: powerup.dfy ===
/**
 The PowerUp quote as the WAX and EOS scripts compute it from the chain's `powup.state`
 row: amounts arrive as strings carrying a currency suffix, are read as numbers, go
 through the quote engine, and leave as the strings `calculateMaxFractions` returns.

 The scripts read numbers with `parseFloat`, which is a parameter here: a reader from
 strings to Option<real>, None standing for NaN. A NaN, and the division by a zero price
 the scripts do not guard, propagate the way JavaScript numbers do: the affected fraction
 is spelled "NaN", "Infinity" or "-Infinity" and the total cost "NaN".
 */
module Powerup {
  import opened Results
  import opened Text
  import opened BondingCurve
  import opened Engine

  /** What tells the two `calculateMaxFractions` functions apart: the currency suffix of
      every amount and the number of decimals of the computed actual cost. */
  datatype ChainProfile = ChainProfile(unit: string, decimals: nat)

  /** The WAX script: amounts such as "1.00000000 WAX". */
  const Wax: ChainProfile := ChainProfile(" WAX", 8)

  /** The EOS script: amounts such as "0.1000 EOS". */
  const Eos: ChainProfile := ChainProfile(" EOS", 4)

  /** A suffix that cannot be mistaken for part of a rendered number. */
  predicate SeparableUnit(unit: string)
  {
    |unit| > 0 && !NumeralChar(unit[0])
  }

  /** Arguments of the chain's `get_table_rows` call. */
  datatype TableQuery = TableQuery(code: string, table: string, scope: string, limit: nat,
                                   reverse: bool, showPayer: bool)

  /** The single row of the system contract's `powup.state` table. */
  const StateQuery: TableQuery := TableQuery("eosio", "powup.state", "", 1, false, false)

  /** One market of the state row, its fields as the chain returns them. */
  datatype ResourceRow = ResourceRow(minPrice: string, maxPrice: string, adjustedUtilization: string)

  /** The fields of the state row the quote reads. */
  datatype StateRow = StateRow(net: ResourceRow, cpu: ResourceRow)

  /** Why no state row was obtained: the query failed, or the table has no row. */
  datatype StateError = Transport(cause: string) | EmptyTable

  /** Fetches the state row with `fetch`, the chain's table query: a failed query is passed
      on as it came, an empty table is an error, and otherwise the first row is the state. */
  function GetPowerupState(fetch: TableQuery -> Result<seq<StateRow>, string>): (r: Result<StateRow, StateError>)
    ensures r.Ok? <==> fetch(StateQuery).Ok? && |fetch(StateQuery).value| > 0
    ensures r.Ok? ==> r.value == fetch(StateQuery).value[0]
    ensures fetch(StateQuery).Err? ==> r == Err(Transport(fetch(StateQuery).error))
    ensures fetch(StateQuery).Ok? && |fetch(StateQuery).value| == 0 ==> r == Err(EmptyTable)
  {
    var response := fetch(StateQuery);
    if response.Err? then Err(Transport(response.error))
    else if |response.value| == 0 then Err(EmptyTable)
    else Ok(response.value[0])
  }

  /** An amount: a text without the currency suffix is read as it is; otherwise the first
      occurrence of the suffix is cut out and what surrounds it is read. */
  function ReadAmount(profile: ChainProfile, parse: string -> Option<real>, text: string): (r: Option<real>)
    ensures IndexOf(text, profile.unit) == -1 ==> r == parse(text)
    ensures IndexOf(text, profile.unit) != -1 ==>
      var i, rest := IndexOf(text, profile.unit), RemoveFirst(text, profile.unit);
      i <= |rest| && text == rest[..i] + profile.unit + rest[i..] && r == parse(rest)
  {
    parse(RemoveFirst(text, profile.unit))
  }

  /** A market read from its row: the two prices as amounts, the utilization as a plain
      number; unreadable when any of the three is. */
  function ReadResource(profile: ChainProfile, parse: string -> Option<real>, row: ResourceRow): (r: Option<Resource>)
    ensures r.Some? <==>
      ReadAmount(profile, parse, row.minPrice).Some? && ReadAmount(profile, parse, row.maxPrice).Some? &&
      parse(row.adjustedUtilization).Some?
  {
    var lo, hi := ReadAmount(profile, parse, row.minPrice), ReadAmount(profile, parse, row.maxPrice);
    var adjusted := parse(row.adjustedUtilization);
    if lo.Some? && hi.Some? && adjusted.Some? then Some(Resource(lo.value, hi.value, adjusted.value))
    else None
  }

  /** Both markets of the state row, when both are readable. */
  function ReadMarket(profile: ChainProfile, parse: string -> Option<real>, state: StateRow): (r: Option<Market>)
    ensures r.Some? <==>
      ReadResource(profile, parse, state.net).Some? && ReadResource(profile, parse, state.cpu).Some?
    ensures r.Some? ==>
      Some(r.value.net) == ReadResource(profile, parse, state.net) &&
      Some(r.value.cpu) == ReadResource(profile, parse, state.cpu)
  {
    var net, cpu := ReadResource(profile, parse, state.net), ReadResource(profile, parse, state.cpu);
    if net.Some? && cpu.Some? then Some(Market(net.value, cpu.value)) else None
  }

  /** A market row as the chain writes it: prices with `profile.decimals` decimals and the
      suffix, utilization as an integer. */
  function RenderResource(profile: ChainProfile, minPrice: real, maxPrice: real, adjusted: int): ResourceRow
  {
    ResourceRow(ToFixed(minPrice, profile.decimals) + profile.unit,
                ToFixed(maxPrice, profile.decimals) + profile.unit,
                IntToString(adjusted))
  }

  /** Reading a rendered row with the decimal reader gives back the rendered amounts. */
  lemma ReadRenderedResource(profile: ChainProfile, minPrice: real, maxPrice: real, adjusted: int)
    requires SeparableUnit(profile.unit)
    ensures ReadResource(profile, ParseDecimal, RenderResource(profile, minPrice, maxPrice, adjusted))
      == Some(Resource(FixedValue(minPrice, profile.decimals), FixedValue(maxPrice, profile.decimals), adjusted as real))
  {
    ReadRenderedAmount(profile, minPrice);
    ReadRenderedAmount(profile, maxPrice);
    IntToStringRoundTrip(adjusted);
  }

  /** An amount rendered with the suffix reads back as the rounded amount. */
  lemma ReadRenderedAmount(profile: ChainProfile, x: real)
    requires SeparableUnit(profile.unit)
    ensures ReadAmount(profile, ParseDecimal, ToFixed(x, profile.decimals) + profile.unit)
      == Some(FixedValue(x, profile.decimals))
  {
    var amount := ToFixed(x, profile.decimals);
    ToFixedNumeral(x, profile.decimals);
    forall j | 0 <= j < |amount|
      ensures amount[j] != profile.unit[0]
    {
      assert NumeralChar(amount[j]);
    }
    RemoveUnitSuffix(amount, profile.unit);
    ToFixedRoundTrip(x, profile.decimals);
  }

  /** One dimension as JavaScript numbers: a finite purchase, or the non-finite fraction an
      unreadable amount or a zero price produces; a non-finite fraction makes the cost NaN. */
  datatype Dimension = Bought(purchase: Purchase) | NotFinite(fracText: string)

  /** How JavaScript spells share / 0: NaN for 0 / 0, else an infinity of the share's sign. */
  function DivisionByZero(share: real): (s: string)
    ensures s == "NaN" <==> share == 0.0
    ensures s == "Infinity" <==> share > 0.0
    ensures s == "-Infinity" <==> share < 0.0
  {
    if share > 0.0 then "Infinity" else if share < 0.0 then "-Infinity" else "NaN"
  }

  /** Spends `ratio` of `budget` in `resource`; NaN when either is unreadable. */
  function Spend(budget: Option<real>, resource: Option<Resource>, ratio: real): (d: Dimension)
    ensures d.Bought? <==> budget.Some? && resource.Some? && Price(resource.value) != 0.0
    ensures budget.None? || resource.None? ==> d == NotFinite("NaN")
    ensures d.NotFinite? ==> d.fracText == "NaN" || d.fracText == "Infinity" || d.fracText == "-Infinity"
  {
    if budget.None? || resource.None? then NotFinite("NaN")
    else SpendShare(budget.value, resource.value, ratio)
  }

  /** Spends `ratio` of `budget` in `r`, where a zero price yields a non-finite fraction. */
  function SpendShare(budget: real, r: Resource, ratio: real): (d: Dimension)
    ensures d.Bought? <==> Price(r) != 0.0
    ensures d.NotFinite? ==> d.fracText == "NaN" || d.fracText == "Infinity" || d.fracText == "-Infinity"
    ensures d.NotFinite? ==> (d.fracText == "NaN" <==> budget * ratio == 0.0)
    ensures d.NotFinite? ==> (d.fracText == "Infinity" <==> budget * ratio > 0.0)
  {
    var share := budget * ratio;
    if Price(r) == 0.0 then NotFinite(DivisionByZero(share)) else Bought(Buy(Price(r), share))
  }

  /** `frac.toString()`: a finite fraction reads back as itself, a non-finite one keeps
      its JavaScript spelling. */
  function FracText(d: Dimension): (s: string)
    ensures d.Bought? ==> ParseDecimal(s) == Some(d.purchase.frac as real)
    ensures d.NotFinite? ==> s == d.fracText
  {
    if d.Bought? then
      IntToStringRoundTrip(d.purchase.frac);
      IntToString(d.purchase.frac)
    else d.fracText
  }

  /** `(netCost + cpuCost).toFixed(decimals) + unit`: the suffix follows a numeral that
      reads back as the rounded total of two finite costs, and "NaN" otherwise. */
  function CostText(profile: ChainProfile, net: Dimension, cpu: Dimension): (s: string)
    ensures |s| >= |profile.unit| && s[|s| - |profile.unit|..] == profile.unit
    ensures net.Bought? && cpu.Bought? ==>
      ParseDecimal(s[..|s| - |profile.unit|])
        == Some(FixedValue(net.purchase.cost + cpu.purchase.cost, profile.decimals))
    ensures !(net.Bought? && cpu.Bought?) ==> s[..|s| - |profile.unit|] == "NaN"
  {
    var numeral :=
      if net.Bought? && cpu.Bought? then
        ToFixedRoundTrip(net.purchase.cost + cpu.purchase.cost, profile.decimals);
        ToFixed(net.purchase.cost + cpu.purchase.cost, profile.decimals)
      else "NaN";
    var s := numeral + profile.unit;
    assert s[..|numeral|] == numeral && s[|numeral|..] == profile.unit;
    s
  }

  /** The object `calculateMaxFractions` returns, as strings; the first three fields go
      into the `powerup` action, and `actualCost` is computed but not sent. */
  datatype PowerupData = PowerupData(netFrac: string, cpuFrac: string, maxPayment: string, actualCost: string)

  /** The returned object for the two dimensions, the payment string passed on as given. */
  function Render(profile: ChainProfile, maxPayment: string, net: Dimension, cpu: Dimension): (d: PowerupData)
    ensures d.maxPayment == maxPayment
    ensures net.Bought? ==> ParseDecimal(d.netFrac) == Some(net.purchase.frac as real)
    ensures cpu.Bought? ==> ParseDecimal(d.cpuFrac) == Some(cpu.purchase.frac as real)
    ensures net.NotFinite? ==> d.netFrac == net.fracText
    ensures cpu.NotFinite? ==> d.cpuFrac == cpu.fracText
    ensures !(net.Bought? && cpu.Bought?) ==> d.actualCost == "NaN" + profile.unit
  {
    PowerupData(FracText(net), FracText(cpu), maxPayment, CostText(profile, net, cpu))
  }

  /** The quote for the payment `maxPayment` in the market `state`, spending `netRatio` of
      the payment on NET and `cpuRatio` on CPU: the payment string is passed on unchanged,
      and an unreadable payment makes every number NaN. */
  function CalculateMaxFractions(profile: ChainProfile, parse: string -> Option<real>, state: StateRow,
                                 maxPayment: string, cpuRatio: real, netRatio: real): (d: PowerupData)
    ensures d.maxPayment == maxPayment
    ensures ReadAmount(profile, parse, maxPayment).None? ==>
      d.netFrac == "NaN" && d.cpuFrac == "NaN" && d.actualCost == "NaN" + profile.unit
  {
    var budget := ReadAmount(profile, parse, maxPayment);
    Render(profile, maxPayment, Spend(budget, ReadResource(profile, parse, state.net), netRatio),
           Spend(budget, ReadResource(profile, parse, state.cpu), cpuRatio))
  }

  /** The quote with the scripts' default split: 99% on CPU, 1% on NET. */
  function CalculateWithDefaults(profile: ChainProfile, parse: string -> Option<real>, state: StateRow,
                                 maxPayment: string): (d: PowerupData)
    ensures d.maxPayment == maxPayment
    ensures ReadAmount(profile, parse, maxPayment).None? ==>
      d.netFrac == "NaN" && d.cpuFrac == "NaN" && d.actualCost == "NaN" + profile.unit
  {
    CalculateMaxFractions(profile, parse, state, maxPayment, DefaultCpuRatio, DefaultNetRatio)
  }

  /** The payment reads as `budget` and the market as `m`. */
  predicate ReadsAs(profile: ChainProfile, parse: string -> Option<real>, state: StateRow,
                    maxPayment: string, budget: real, m: Market)
  {
    ReadAmount(profile, parse, maxPayment) == Some(budget) && ReadMarket(profile, parse, state) == Some(m)
  }

  /** When payment and market are readable and neither price is zero, both dimensions are
      the finite purchases of the engine's quote. */
  lemma QuoteDimensions(profile: ChainProfile, parse: string -> Option<real>, state: StateRow,
                        maxPayment: string, cpuRatio: real, netRatio: real, budget: real, m: Market)
    requires ReadsAs(profile, parse, state, maxPayment, budget, m) && Priced(m)
    ensures
      var q := ComputeQuote(m, budget, cpuRatio, netRatio);
      Spend(Some(budget), ReadResource(profile, parse, state.net), netRatio) == Bought(q.net) &&
      Spend(Some(budget), ReadResource(profile, parse, state.cpu), cpuRatio) == Bought(q.cpu)
  {
    assert ReadResource(profile, parse, state.net) == Some(m.net);
    assert ReadResource(profile, parse, state.cpu) == Some(m.cpu);
    SpendInMarket(budget, m.net, netRatio);
    SpendInMarket(budget, m.cpu, cpuRatio);
    ComputeQuoteBuys(m, budget, cpuRatio, netRatio);
  }

  /** With a readable payment and a non-zero price the dimension is a finite purchase. */
  lemma SpendInMarket(budget: real, r: Resource, ratio: real)
    requires Price(r) != 0.0
    ensures Spend(Some(budget), Some(r), ratio) == Bought(Buy(Price(r), budget * ratio))
  {
  }

  /** The returned strings spell the engine's quote: the fractions as integers, the cost
      as the quote's total rounded to the profile's decimals, followed by the suffix. */
  lemma QuoteText(profile: ChainProfile, parse: string -> Option<real>, state: StateRow,
                  maxPayment: string, cpuRatio: real, netRatio: real, budget: real, m: Market)
    requires ReadsAs(profile, parse, state, maxPayment, budget, m) && Priced(m)
    ensures
      var q := ComputeQuote(m, budget, cpuRatio, netRatio);
      CalculateMaxFractions(profile, parse, state, maxPayment, cpuRatio, netRatio)
        == Render(profile, maxPayment, Bought(q.net), Bought(q.cpu))
  {
    var q := ComputeQuote(m, budget, cpuRatio, netRatio);
    var net := Spend(Some(budget), ReadResource(profile, parse, state.net), netRatio);
    var cpu := Spend(Some(budget), ReadResource(profile, parse, state.cpu), cpuRatio);
    assert CalculateMaxFractions(profile, parse, state, maxPayment, cpuRatio, netRatio)
      == Render(profile, maxPayment, net, cpu);
    QuoteDimensions(profile, parse, state, maxPayment, cpuRatio, netRatio, budget, m);
  }

  /** The returned strings read back as the engine's quote: the fractions exactly, the cost
      as the quote's total rounded to the profile's decimals. */
  lemma QuoteReadsBack(profile: ChainProfile, parse: string -> Option<real>, state: StateRow,
                       maxPayment: string, cpuRatio: real, netRatio: real, budget: real, m: Market)
    requires SeparableUnit(profile.unit)
    requires ReadsAs(profile, parse, state, maxPayment, budget, m) && Priced(m)
    ensures
      var q := ComputeQuote(m, budget, cpuRatio, netRatio);
      var d := CalculateMaxFractions(profile, parse, state, maxPayment, cpuRatio, netRatio);
      ParseDecimal(d.netFrac) == Some(q.net.frac as real) &&
      ParseDecimal(d.cpuFrac) == Some(q.cpu.frac as real) &&
      ReadAmount(profile, ParseDecimal, d.actualCost) == Some(FixedValue(q.TotalCost(), profile.decimals))
  {
    var q := ComputeQuote(m, budget, cpuRatio, netRatio);
    QuoteText(profile, parse, state, maxPayment, cpuRatio, netRatio, budget, m);
    RenderReadsBack(profile, maxPayment, q.net, q.cpu);
  }

  /** The strings rendered for two finite purchases read back as their fractions and as
      their total cost rounded to the profile's decimals. */
  lemma RenderReadsBack(profile: ChainProfile, maxPayment: string, net: Purchase, cpu: Purchase)
    requires SeparableUnit(profile.unit)
    ensures
      var d := Render(profile, maxPayment, Bought(net), Bought(cpu));
      ParseDecimal(d.netFrac) == Some(net.frac as real) &&
      ParseDecimal(d.cpuFrac) == Some(cpu.frac as real) &&
      ReadAmount(profile, ParseDecimal, d.actualCost) == Some(FixedValue(net.cost + cpu.cost, profile.decimals))
  {
    var d := Render(profile, maxPayment, Bought(net), Bought(cpu));
    assert d.netFrac == IntToString(net.frac) && d.cpuFrac == IntToString(cpu.frac);
    assert d.actualCost == ToFixed(net.cost + cpu.cost, profile.decimals) + profile.unit;
    IntToStringRoundTrip(net.frac);
    IntToStringRoundTrip(cpu.frac);
    ReadRenderedAmount(profile, net.cost + cpu.cost);
  }

  /** The computed actual cost never exceeds the payment: with positive prices, a payment of
      `units` steps of the profile's last decimal, and a split of at most the whole, the
      actual cost reads back as an amount between zero and the payment. */
  lemma ActualCostWithinMaxPayment(profile: ChainProfile, parse: string -> Option<real>, state: StateRow,
                                   maxPayment: string, cpuRatio: real, netRatio: real, units: nat, m: Market)
    requires SeparableUnit(profile.unit) && ValidSplit(cpuRatio, netRatio)
    requires ReadsAs(profile, parse, state, maxPayment, Shift(units, profile.decimals), m)
    requires PositivelyPriced(m)
    ensures
      var d := CalculateMaxFractions(profile, parse, state, maxPayment, cpuRatio, netRatio);
      var cost := ReadAmount(profile, ParseDecimal, d.actualCost);
      cost.Some? && 0.0 <= cost.value <= Shift(units, profile.decimals)
  {
    var budget := Shift(units, profile.decimals);
    ShiftNonNegative(units, profile.decimals);
    var q := ComputeQuote(m, budget, cpuRatio, netRatio);
    assert 0.0 <= q.TotalCost() <= budget;
    QuoteReadsBack(profile, parse, state, maxPayment, cpuRatio, netRatio, budget, m);
    FixedValueWithinGrid(q.TotalCost(), profile.decimals, units);
  }

  /** A zero payment buys nothing and reports a zero cost; it is not rejected. */
  lemma ZeroPaymentQuote(profile: ChainProfile, parse: string -> Option<real>, state: StateRow,
                         maxPayment: string, cpuRatio: real, netRatio: real, m: Market)
    requires ReadsAs(profile, parse, state, maxPayment, 0.0, m) && Priced(m)
    ensures
      var d := CalculateMaxFractions(profile, parse, state, maxPayment, cpuRatio, netRatio);
      d.netFrac == "0" && d.cpuFrac == "0" &&
      d.actualCost == (if profile.decimals == 0 then "0" else "0." + Zeros(profile.decimals)) + profile.unit
  {
    QuoteText(profile, parse, state, maxPayment, cpuRatio, netRatio, 0.0, m);
    var q := ComputeQuote(m, 0.0, cpuRatio, netRatio);
    assert q.TotalCost() == 0.0;
    assert Digits(0) == "0";
    ZeroToFixed(profile.decimals);
  }

  /** A zero price is not guarded: the fraction of that market comes out as "Infinity",
      "-Infinity" or "NaN" depending on the sign of its share, and the cost as "NaN". */
  lemma ZeroNetPriceQuote(profile: ChainProfile, parse: string -> Option<real>, state: StateRow,
                          maxPayment: string, cpuRatio: real, netRatio: real, budget: real, m: Market)
    requires ReadsAs(profile, parse, state, maxPayment, budget, m) && Price(m.net) == 0.0
    ensures
      var d := CalculateMaxFractions(profile, parse, state, maxPayment, cpuRatio, netRatio);
      d.netFrac == DivisionByZero(budget * netRatio) && d.actualCost == "NaN" + profile.unit
  {
    assert ReadResource(profile, parse, state.net) == Some(m.net);
  }

  /** An unreadable market makes its own fraction and the cost NaN, and leaves the other
      market's fraction as a readable one would. */
  lemma UnreadableNetQuote(profile: ChainProfile, parse: string -> Option<real>, state: StateRow,
                           maxPayment: string, cpuRatio: real, netRatio: real, otherNet: ResourceRow)
    requires ReadResource(profile, parse, state.net).None?
    ensures
      var d := CalculateMaxFractions(profile, parse, state, maxPayment, cpuRatio, netRatio);
      var e := CalculateMaxFractions(profile, parse, StateRow(otherNet, state.cpu), maxPayment, cpuRatio, netRatio);
      d.netFrac == "NaN" && d.actualCost == "NaN" + profile.unit && d.cpuFrac == e.cpuFrac
  {
  }

  /** The same for the CPU market: its fraction and the cost are NaN, and the NET fraction
      is what a readable CPU market would leave it. */
  lemma UnreadableCpuQuote(profile: ChainProfile, parse: string -> Option<real>, state: StateRow,
                           maxPayment: string, cpuRatio: real, netRatio: real, otherCpu: ResourceRow)
    requires ReadResource(profile, parse, state.cpu).None?
    ensures
      var d := CalculateMaxFractions(profile, parse, state, maxPayment, cpuRatio, netRatio);
      var e := CalculateMaxFractions(profile, parse, StateRow(state.net, otherCpu), maxPayment, cpuRatio, netRatio);
      d.cpuFrac == "NaN" && d.actualCost == "NaN" + profile.unit && d.netFrac == e.netFrac
  {
  }

  /** Both scripts' suffixes are separable. */
  lemma ProfilesSeparable()
    ensures SeparableUnit(Wax.unit) && SeparableUnit(Eos.unit)
  {
  }

  /** The default split spends at most the whole payment. */
  lemma DefaultSplitValid()
    ensures ValidSplit(DefaultCpuRatio, DefaultNetRatio)
  {
  }

  /** With the default split, either script's computed actual cost never exceeds the payment: at
      positive prices and a payment of `units` steps of the last decimal, the actual cost
      reads back as an amount between zero and the payment. */
  lemma DefaultCostWithinMaxPayment(profile: ChainProfile, parse: string -> Option<real>, state: StateRow,
                                    maxPayment: string, units: nat, m: Market)
    requires profile == Wax || profile == Eos
    requires ReadsAs(profile, parse, state, maxPayment, Shift(units, profile.decimals), m)
    requires PositivelyPriced(m)
    ensures
      var d := CalculateWithDefaults(profile, parse, state, maxPayment);
      var cost := ReadAmount(profile, ParseDecimal, d.actualCost);
      cost.Some? && 0.0 <= cost.value <= Shift(units, profile.decimals)
  {
    ProfilesSeparable();
    DefaultSplitValid();
    ActualCostWithinMaxPayment(profile, parse, state, maxPayment, DefaultCpuRatio, DefaultNetRatio, units, m);
  }
}

=== FILE: results.dfy ===
/** Failure-carrying datatypes shared by the modules of the PowerUp model. */
module Results {

  /** A value that may be absent, e.g. the outcome of reading a decimal string. */
  datatype Option<+T> = None | Some(value: T)

  /** Either a value or the error that took its place (a thrown exception in the scripts). */
  datatype Result<+T, +E> = Ok(value: T) | Err(error: E)
}

=== FILE: text.dfy ===
/**
 The few JavaScript string operations the quote engine relies on, on exact values:
 `String.prototype.indexOf` and `replace` with a string pattern (used to drop the
 currency suffix), `Number.prototype.toString` on an integer (the fractions sent to
 the chain) and `Number.prototype.toFixed` (the computed actual cost).

 A small decimal reader, `ParseDecimal`, is the inverse against which the two
 renderings are proved.
 */
module Text {
  import opened Results

  // ---------------------------------------------------------------------------
  // indexOf / replace

  /** `pat` occurs in `s` starting at index `i`. */
  predicate OccursAt(s: string, pat: string, i: int)
  {
    0 <= i && i + |pat| <= |s| && s[i..i + |pat|] == pat
  }

  /** The first occurrence of `pat` in `s` at or after `k`, or -1 if there is none. */
  function IndexFrom(s: string, pat: string, k: nat): (i: int)
    requires k <= |s|
    ensures i == -1 || (k <= i && OccursAt(s, pat, i))
    ensures i == -1 ==> forall j :: k <= j ==> !OccursAt(s, pat, j)
    ensures i != -1 ==> forall j :: k <= j < i ==> !OccursAt(s, pat, j)
    decreases |s| - k
  {
    if OccursAt(s, pat, k) then k
    else if k == |s| then -1
    else IndexFrom(s, pat, k + 1)
  }

  /** `s.indexOf(pat)`: the least index where `pat` occurs, -1 when it occurs nowhere. */
  function IndexOf(s: string, pat: string): (i: int)
    ensures i == -1 || OccursAt(s, pat, i)
    ensures i == -1 <==> forall j :: 0 <= j ==> !OccursAt(s, pat, j)
    ensures forall j :: 0 <= j < i ==> !OccursAt(s, pat, j)
  {
    IndexFrom(s, pat, 0)
  }

  /** `s.replace(pat, '')`: the first occurrence of `pat` is cut out; without one, `s` is unchanged. */
  function RemoveFirst(s: string, pat: string): (r: string)
    ensures IndexOf(s, pat) == -1 ==> r == s
    ensures IndexOf(s, pat) != -1 ==>
              var i := IndexOf(s, pat);
              |r| == |s| - |pat| && i <= |r| && s == r[..i] + pat + r[i..]
  {
    var i := IndexOf(s, pat);
    if i == -1 then s
    else
      var r := s[..i] + s[i + |pat|..];
      assert r[..i] == s[..i] && r[i..] == s[i + |pat|..];
      assert s == s[..i] + s[i..i + |pat|] + s[i + |pat|..];
      r
  }

  /** The first occurrence is the one at `i` when `pat` occurs at `i` and nowhere before. */
  lemma IndexOfIsFirstOccurrence(s: string, pat: string, i: int)
    requires OccursAt(s, pat, i)
    requires forall j :: 0 <= j < i ==> !OccursAt(s, pat, j)
    ensures IndexOf(s, pat) == i
  {
  }

  /** Dropping a unit suffix: when the suffix's first character does not occur in the
      amount, `(amount + unit).replace(unit, '')` is exactly `amount`. */
  lemma RemoveUnitSuffix(amount: string, unit: string)
    requires |unit| > 0
    requires forall j :: 0 <= j < |amount| ==> amount[j] != unit[0]
    ensures RemoveFirst(amount + unit, unit) == amount
  {
    var s := amount + unit;
    assert s[|amount|..|amount| + |unit|] == unit;
    forall j | 0 <= j < |amount|
      ensures !OccursAt(s, unit, j)
    {
      if j + |unit| <= |s| {
        assert s[j..j + |unit|][0] == s[j] == amount[j];
      }
    }
    IndexOfIsFirstOccurrence(s, unit, |amount|);
    assert s[..|amount|] == amount;
  }

  // ---------------------------------------------------------------------------
  // Decimal digits

  predicate IsDigit(c: char)
  {
    '0' <= c <= '9'
  }

  predicate AllDigits(s: string)
  {
    forall i :: 0 <= i < |s| ==> IsDigit(s[i])
  }

  function DigitChar(d: nat): (c: char)
    requires d < 10
    ensures IsDigit(c) && c as int - '0' as int == d
  {
    ('0' as int + d) as char
  }

  function DigitValue(c: char): nat
    requires IsDigit(c)
  {
    c as int - '0' as int
  }

  function Pow10(n: nat): (p: nat)
    ensures p >= 1
  {
    if n == 0 then 1 else 10 * Pow10(n - 1)
  }

  /** The shortest decimal spelling of `n`: digits only, no leading zero unless `n` is 0. */
  function Digits(n: nat): (s: string)
    ensures |s| > 0 && AllDigits(s)
    ensures s[0] == '0' ==> n == 0
    decreases n
  {
    if n < 10 then [DigitChar(n)] else Digits(n / 10) + [DigitChar(n % 10)]
  }

  /** The number a string of decimal digits denotes (the empty string denotes 0). */
  function DigitsValue(s: string): (v: nat)
    requires AllDigits(s)
    ensures v < Pow10(|s|)
  {
    if |s| == 0 then 0 else DigitsValue(s[..|s| - 1]) * 10 + DigitValue(s[|s| - 1])
  }

  /** A run of `k` zero digits. */
  function Zeros(k: nat): (z: string)
    ensures |z| == k && AllDigits(z)
  {
    if k == 0 then [] else Zeros(k - 1) + "0"
  }

  lemma {:induction false} DigitsRoundTrip(n: nat)
    ensures DigitsValue(Digits(n)) == n
    decreases n
  {
    if n >= 10 {
      DigitsRoundTrip(n / 10);
      var s := Digits(n);
      assert s[..|s| - 1] == Digits(n / 10);
    }
  }

  lemma AllDigitsAppend(a: string, b: string)
    requires AllDigits(a) && AllDigits(b)
    ensures AllDigits(a + b)
  {
    forall i | 0 <= i < |a + b| ensures IsDigit((a + b)[i]) {
      if i < |a| { assert (a + b)[i] == a[i]; } else { assert (a + b)[i] == b[i - |a|]; }
    }
  }

  /** Appending digit strings: the left part is shifted by one power of ten per digit on the right. */
  lemma {:induction false} DigitsValueAppend(a: string, b: string)
    requires AllDigits(a) && AllDigits(b)
    ensures AllDigits(a + b)
    ensures DigitsValue(a + b) == DigitsValue(a) * Pow10(|b|) + DigitsValue(b)
    decreases |b|
  {
    AllDigitsAppend(a, b);
    if |b| == 0 {
      assert a + b == a;
    } else {
      var b' := b[..|b| - 1];
      assert AllDigits(b');
      DigitsValueAppend(a, b');
      assert (a + b)[..|a + b| - 1] == a + b';
      assert (a + b)[|a + b| - 1] == b[|b| - 1];
      ShiftDigit(DigitsValue(a), Pow10(|b'|), DigitsValue(b'), DigitValue(b[|b| - 1]));
    }
  }

  lemma ShiftDigit(va: int, p: int, vb: int, last: int)
    ensures (va * p + vb) * 10 + last == va * (10 * p) + (vb * 10 + last)
  {
  }

  lemma {:induction false} ZerosValue(k: nat)
    ensures DigitsValue(Zeros(k)) == 0
  {
    if k > 0 {
      ZerosValue(k - 1);
      assert Zeros(k)[..k - 1] == Zeros(k - 1);
      assert DigitValue(Zeros(k)[k - 1]) == 0;
    }
  }

  /** Leading zeros do not change the value of a digit string. */
  lemma PrependZeros(k: nat, m: string)
    requires AllDigits(m)
    ensures AllDigits(Zeros(k) + m) && DigitsValue(Zeros(k) + m) == DigitsValue(m)
  {
    DigitsValueAppend(Zeros(k), m);
    ZerosValue(k);
    assert DigitsValue(Zeros(k)) * Pow10(|m|) == 0;
  }

  // ---------------------------------------------------------------------------
  // Reading decimals back

  /** Reads `digits` or `digits.digits`; None for anything else. */
  function ParseUnsigned(s: string): Option<real>
  {
    var k := IndexOf(s, ".");
    if k == -1 then
      if |s| > 0 && AllDigits(s) then Some(DigitsValue(s) as real) else None
    else ReadParts(s[..k], s[k + 1..])
  }

  /** The value of the numeral `whole.fraction`, given its two digit runs: all the digits
      read as one integer, scaled down by one power of ten per digit after the point. */
  function ReadParts(whole: string, fraction: string): Option<real>
  {
    if |whole| > 0 && AllDigits(whole + fraction) then
      Some(Shift(DigitsValue(whole + fraction), |fraction|))
    else None
  }

  /** Reads an optionally negative decimal numeral: `digits`, `digits.digits`, with an optional
      leading "-"; None for anything else. */
  function ParseDecimal(s: string): Option<real>
  {
    if |s| > 0 && s[0] == '-' then
      var magnitude := ParseUnsigned(s[1..]);
      if magnitude.Some? then Some(-magnitude.value) else None
    else ParseUnsigned(s)
  }

  lemma NoDecimalPoint(s: string)
    requires AllDigits(s)
    ensures IndexOf(s, ".") == -1
  {
    forall j | 0 <= j
      ensures !OccursAt(s, ".", j)
    {
      if j + 1 <= |s| {
        assert s[j..j + 1][0] == s[j];
      }
    }
  }

  // ---------------------------------------------------------------------------
  // Number.prototype.toString on an integer

  /** The decimal rendering of an integer-valued number. */
  function IntToString(n: int): string
  {
    if n < 0 then "-" + Digits(-n) else Digits(n)
  }

  /** The rendering of an integer: a "-" exactly for a negative `n`, then at least one
      digit and nothing else, with no leading zero unless `n` is 0 (the shape of a
      `toFixed` rendering with no decimals). */
  lemma IntToStringShape(n: int)
    ensures FixedShape(IntToString(n), n < 0, 0)
  {
    var s := IntToString(n);
    if n < 0 {
      assert s[1..] == Digits(-n);
    } else {
      assert s[0..] == s && IsDigit(s[0]);
    }
  }

  /** Reading the rendering of an integer gives the integer back. */
  lemma IntToStringRoundTrip(n: int)
    ensures ParseDecimal(IntToString(n)) == Some(n as real)
  {
    if n < 0 {
      DigitsRoundTrip(-n);
      ReadPlain(Digits(-n));
      ReadNegated(Digits(-n), (-n) as real);
    } else {
      var d := Digits(n);
      DigitsRoundTrip(n);
      ReadPlain(d);
      assert IsDigit(d[0]);
    }
  }

  // ---------------------------------------------------------------------------
  // Number.prototype.toFixed

  /** Distance between the grid point `k` and the scaled value `y`. */
  function Distance(k: int, y: real): real
  {
    if k as real >= y then k as real - y else y - k as real
  }

  /** The integer `n` of the toFixed algorithm: the grid point nearest to `y`, the larger one
      on a tie. */
  function NearestHalfUp(y: real): (n: int)
    ensures forall k: int :: Distance(n, y) <= Distance(k, y)
    ensures forall k: int :: Distance(k, y) == Distance(n, y) ==> k <= n
    ensures y >= 0.0 ==> n >= 0
  {
    var n := (y + 0.5).Floor;
    NearestGridPoint(y, n);
    n
  }

  lemma NearestGridPoint(y: real, n: int)
    requires y - 0.5 < n as real <= y + 0.5
    ensures forall k: int :: Distance(n, y) <= Distance(k, y)
    ensures forall k: int :: Distance(k, y) == Distance(n, y) ==> k <= n
  {
    forall k: int
      ensures Distance(n, y) <= Distance(k, y)
      ensures Distance(k, y) == Distance(n, y) ==> k <= n
    {
      if k > n {
        assert k as real >= n as real + 1.0;
      } else if k < n {
        assert k as real <= n as real - 1.0;
      }
    }
  }

  /** `n` written with at least one digit before the point and exactly `f` after it:
      the digit string of `n` is left-padded with zeros to `f + 1` digits, then the point
      goes before the last `f`. */
  function FixedDigits(n: nat, f: nat): string
  {
    InsertPoint(Padded(n, f), f)
  }

  /** Puts a decimal point before the last `f` characters (none when `f` is 0). */
  function InsertPoint(digits: string, f: nat): string
    requires |digits| > f
  {
    if f == 0 then digits else digits[..|digits| - f] + "." + digits[|digits| - f..]
  }

  /** The integer that toFixed(f) spells for a non-negative `x`: `x * 10^f`, rounded half up. */
  function FixedMagnitude(x: real, f: nat): nat
    requires x >= 0.0
  {
    assert x * Pow10(f) as real >= 0.0;
    NearestHalfUp(x * Pow10(f) as real)
  }

  /** `x.toFixed(f)` for |x| < 1e21: a "-" for negative `x`, then the magnitude rounded to `f`
      decimal places. */
  function ToFixed(x: real, f: nat): (s: string)
    ensures |s| > 0 && (s[0] == '-' <==> x < 0.0)
  {
    Signed(x < 0.0, FixedDigits(FixedMagnitude(Abs(x), f), f))
  }

  /** Digits with a point before the last `f` of them and at least one digit before it;
      digits only when `f` is 0. The digits before the point begin with a zero only when
      they are exactly "0". */
  predicate PointedDigits(t: string, f: nat)
  {
    if f == 0 then |t| > 0 && AllDigits(t) && (t[0] == '0' ==> |t| == 1)
    else
      |t| >= f + 2 && AllDigits(t[..|t| - f - 1]) && t[|t| - f - 1] == '.' && AllDigits(t[|t| - f..]) &&
      (t[0] == '0' ==> |t| == f + 2)
  }

  /** A "-" first exactly when `negative`, followed by PointedDigits. */
  predicate FixedShape(s: string, negative: bool, f: nat)
  {
    var start := if negative then 1 else 0;
    |s| > start && (s[0] == '-' <==> negative) && PointedDigits(s[start..], f)
  }

  /** The shape of a `toFixed` rendering: a "-" first exactly when `x` is negative, then at
      least one digit before the point, with no leading zero unless the integer part is 0,
      and exactly `f` digits after it (no point when `f` is 0). */
  lemma ToFixedShape(x: real, f: nat)
    ensures FixedShape(ToFixed(x, f), x < 0.0, f)
  {
    var n := FixedMagnitude(Abs(x), f);
    FixedDigitsShape(n, f);
    SignedShape(x < 0.0, FixedDigits(n, f), f);
  }

  /** The unsigned part of a rendering. */
  lemma FixedDigitsShape(n: nat, f: nat)
    ensures PointedDigits(FixedDigits(n, f), f)
  {
    PaddedLeading(n, f);
    if f > 0 {
      PointShape(Padded(n, f), f);
    }
  }

  /** A sign in front of pointed digits. */
  lemma SignedShape(negative: bool, t: string, f: nat)
    requires PointedDigits(t, f)
    ensures FixedShape(Signed(negative, t), negative, f)
  {
    var s := Signed(negative, t);
    var start := if negative then 1 else 0;
    assert s[start..] == t;
    assert IsDigit(t[0]);
  }

  lemma PointShape(digits: string, f: nat)
    requires |digits| > f > 0 && AllDigits(digits)
    requires digits[0] == '0' ==> |digits| == f + 1
    ensures PointedDigits(InsertPoint(digits, f), f)
  {
    var t := InsertPoint(digits, f);
    var k := |digits| - f;
    assert t[..k] == digits[..k];
    assert t[k + 1..] == digits[k..];
  }

  function Abs(x: real): (a: real)
    ensures a >= 0.0 && (a == x || a == -x)
  {
    if x < 0.0 then -x else x
  }

  /** A numeral with a leading "-" when `negative`. */
  function Signed(negative: bool, digits: string): string
  {
    if negative then "-" + digits else digits
  }

  /** The value of Signed(negative, ...) given the value of its digits. */
  function SignedValue(negative: bool, v: real): real
  {
    if negative then -v else v
  }

  /** `n` scaled down by `f` decimal places. */
  function Shift(n: int, f: nat): real
  {
    n as real / Pow10(f) as real
  }

  /** The amount `x.toFixed(f)` denotes. */
  function FixedValue(x: real, f: nat): real
  {
    SignedValue(x < 0.0, Shift(FixedMagnitude(Abs(x), f), f))
  }

  /** The zero-padded digit string of FixedDigits: at least `f + 1` digits, still denoting `n`. */
  function Padded(n: nat, f: nat): (padded: string)
    ensures |padded| >= f + 1 && AllDigits(padded)
    ensures DigitsValue(padded) == n
  {
    var m := Digits(n);
    DigitsRoundTrip(n);
    if |m| <= f then
      PrependZeros(f + 1 - |m|, m);
      Zeros(f + 1 - |m|) + m
    else m
  }

  /** Padding adds zeros only up to a single digit before the last `f`, and the digits of
      `n` begin with a zero only when `n` is 0. */
  lemma PaddedLeading(n: nat, f: nat)
    ensures Padded(n, f)[0] == '0' ==> |Padded(n, f)| == f + 1
  {
    var m := Digits(n);
    if |m| > f && m[0] == '0' {
      assert n == 0 && m == "0";
    }
  }

  /** A numeral without a point reads as its digits. */
  lemma ReadPlain(s: string)
    requires |s| > 0 && AllDigits(s)
    ensures ParseUnsigned(s) == Some(DigitsValue(s) as real)
  {
    NoDecimalPoint(s);
  }

  /** A numeral `whole.fraction` reads as whole + fraction / 10^|fraction|. */
  lemma ReadPointed(whole: string, fraction: string)
    requires |whole| > 0 && AllDigits(whole)
    ensures ParseUnsigned(whole + "." + fraction) == ReadParts(whole, fraction)
  {
    var s := whole + "." + fraction;
    assert s[|whole|..|whole| + 1] == ".";
    forall j | 0 <= j < |whole|
      ensures !OccursAt(s, ".", j)
    {
      assert s[j..j + 1][0] == s[j] == whole[j];
    }
    IndexOfIsFirstOccurrence(s, ".", |whole|);
    var k := IndexOf(s, ".");
    assert k == |whole|;
    assert s[..k] == whole;
    assert s[k + 1..] == fraction;
  }

  lemma JoinSplit(s: string, k: nat)
    requires k <= |s|
    ensures s[..k] + s[k..] == s
  {
  }

  /** A run of more than `f` digits with a point inserted `f` places from the right reads as
      its value scaled down by 10^f, and still starts with a digit. */
  lemma ReadInsertPoint(digits: string, f: nat)
    requires |digits| > f && AllDigits(digits)
    ensures IsDigit(InsertPoint(digits, f)[0])
    ensures ParseUnsigned(InsertPoint(digits, f)) == Some(Shift(DigitsValue(digits), f))
  {
    if f == 0 {
      ReadPlain(digits);
      assert Pow10(0) == 1;
      assert Shift(DigitsValue(digits), 0) == DigitsValue(digits) as real;
    } else {
      var whole, fraction := digits[..|digits| - f], digits[|digits| - f..];
      JoinSplit(digits, |digits| - f);
      assert AllDigits(whole) && |fraction| == f;
      ReadPointed(whole, fraction);
      assert InsertPoint(digits, f) == whole + "." + fraction;
      assert InsertPoint(digits, f)[0] == whole[0];
      assert ReadParts(whole, fraction) == Some(Shift(DigitsValue(digits), f));
    }
  }

  /** Reading a FixedDigits rendering gives `n / 10^f`; the rendering starts with a digit. */
  lemma FixedDigitsRoundTrip(n: nat, f: nat)
    ensures |FixedDigits(n, f)| > 0 && IsDigit(FixedDigits(n, f)[0])
    ensures ParseUnsigned(FixedDigits(n, f)) == Some(Shift(n, f))
  {
    ReadInsertPoint(Padded(n, f), f);
  }

  /** A minus sign negates what the rest reads as. */
  lemma ReadNegated(t: string, v: real)
    requires ParseUnsigned(t) == Some(v)
    ensures ParseDecimal("-" + t) == Some(-v)
  {
    var s := "-" + t;
    assert s[0] == '-' && s[1..] == t;
  }

  /** A signed FixedDigits rendering reads back as the signed, scaled magnitude. */
  lemma SignedFixedRoundTrip(negative: bool, n: nat, f: nat)
    ensures ParseDecimal(Signed(negative, FixedDigits(n, f))) == Some(SignedValue(negative, Shift(n, f)))
  {
    FixedDigitsRoundTrip(n, f);
    if negative {
      ReadNegated(FixedDigits(n, f), Shift(n, f));
    }
  }

  /** Reading `x.toFixed(f)` back gives the rounded amount FixedValue(x, f). */
  lemma ToFixedRoundTrip(x: real, f: nat)
    ensures ParseDecimal(ToFixed(x, f)) == Some(FixedValue(x, f))
  {
    SignedFixedRoundTrip(x < 0.0, FixedMagnitude(Abs(x), f), f);
  }

  // ---------------------------------------------------------------------------
  // What a toFixed rendering is made of

  /** A character that may appear in a rendered numeral. */
  predicate NumeralChar(c: char)
  {
    IsDigit(c) || c == '-' || c == '.'
  }

  predicate AllNumeral(s: string)
  {
    forall i :: 0 <= i < |s| ==> NumeralChar(s[i])
  }

  lemma InsertPointNumeral(digits: string, f: nat)
    requires |digits| > f && AllDigits(digits)
    ensures AllNumeral(InsertPoint(digits, f))
  {
    if f > 0 {
      var t := InsertPoint(digits, f);
      var k := |digits| - f;
      forall i | 0 <= i < |t| ensures NumeralChar(t[i]) {
        if i < k {
          assert t[i] == digits[i];
        } else if i > k {
          assert t[i] == digits[i - 1];
        }
      }
    }
  }

  /** `x.toFixed(f)` is spelled with digits, at most a minus sign and at most a point. */
  lemma ToFixedNumeral(x: real, f: nat)
    ensures AllNumeral(ToFixed(x, f))
  {
    var digits := FixedDigits(FixedMagnitude(Abs(x), f), f);
    InsertPointNumeral(Padded(FixedMagnitude(Abs(x), f), f), f);
    if x < 0.0 {
      var t := "-" + digits;
      forall i | 0 <= i < |t| ensures NumeralChar(t[i]) {
        if i > 0 {
          assert t[i] == digits[i - 1];
        }
      }
    }
  }

  lemma {:induction false} ZerosCommute(k: nat)
    ensures Zeros(k) + "0" == "0" + Zeros(k)
  {
    if k > 0 {
      ZerosCommute(k - 1);
      assert Zeros(k) + "0" == (Zeros(k - 1) + "0") + "0";
    }
  }

  lemma ZeroPadded(f: nat)
    ensures Padded(0, f) == Zeros(f) + "0"
  {
    assert Digits(0) == "0";
    if f == 0 {
      assert Zeros(0) + "0" == "0";
    }
  }

  lemma InsertPointAfterZero(f: nat)
    requires f > 0
    ensures InsertPoint("0" + Zeros(f), f) == "0." + Zeros(f)
  {
    var digits := "0" + Zeros(f);
    assert |digits| - f == 1;
    assert digits[..1] == "0";
    assert digits[1..] == Zeros(f);
  }

  /** Zero rendered with `f` decimals: "0", then a point and `f` zeros when `f` > 0. */
  lemma ZeroToFixed(f: nat)
    ensures ToFixed(0.0, f) == if f == 0 then "0" else "0." + Zeros(f)
  {
    assert FixedMagnitude(0.0, f) == 0;
    ZeroPadded(f);
    ZerosCommute(f);
    if f > 0 {
      InsertPointAfterZero(f);
    }
  }

  /** The nearest grid point to `y` is not above an integer that is not below `y`. */
  lemma NearestBelow(y: real, n: int)
    requires y <= n as real
    ensures NearestHalfUp(y) <= n
  {
    var m := NearestHalfUp(y);
    assert Distance(m, y) <= Distance(n, y);
  }

  /** Rounding to `f` decimals never carries a non-negative amount past a value that has at
      most `f` decimals and is at least the amount. */
  lemma FixedValueWithinGrid(x: real, f: nat, n: nat)
    requires 0.0 <= x <= Shift(n, f)
    ensures 0.0 <= FixedValue(x, f) <= Shift(n, f)
  {
    var p := Pow10(f) as real;
    ScaleUp(x, n as real, p);
    NearestBelow(x * p, n);
    assert FixedMagnitude(x, f) == NearestHalfUp(x * p);
    ScaleDown(FixedMagnitude(x, f) as real, n as real, p);
  }

  lemma ShiftNonNegative(n: nat, f: nat)
    ensures Shift(n, f) >= 0.0
  {
    ScaleDown(0.0, n as real, Pow10(f) as real);
  }

  lemma ScaleUp(x: real, n: real, p: real)
    requires p > 0.0 && x <= n / p
    ensures x * p <= n
  {
    assert (n / p) * p == n;
    assert x * p <= (n / p) * p;
  }

  lemma ScaleDown(m: real, n: real, p: real)
    requires p > 0.0 && 0.0 <= m <= n
    ensures 0.0 <= m / p <= n / p
  {
    assert n / p - m / p == (n - m) / p;
  }

  /** Rounding to `f` decimals moves an amount by at most half a step of the last decimal:
      what `x.toFixed(f)` denotes is within 0.5 / 10^f of `x`. */
  lemma FixedValueNear(x: real, f: nat)
    ensures x - 0.5 / Pow10(f) as real <= FixedValue(x, f) <= x + 0.5 / Pow10(f) as real
  {
    var a := Abs(x);
    MagnitudeNear(a, f);
    assert FixedValue(x, f) == SignedValue(x < 0.0, Shift(FixedMagnitude(a, f), f));
  }

  /** The rounded magnitude, scaled back, is within half a step of the magnitude. */
  lemma MagnitudeNear(a: real, f: nat)
    requires a >= 0.0
    ensures a - 0.5 / Pow10(f) as real <= Shift(FixedMagnitude(a, f), f) <= a + 0.5 / Pow10(f) as real
  {
    var p := Pow10(f) as real;
    var y := a * p;
    var n := FixedMagnitude(a, f);
    assert n == (y + 0.5).Floor;
    assert y - 0.5 <= n as real <= y + 0.5;
    WithinHalfStep(a, n as real, p);
  }

  lemma WithinHalfStep(a: real, m: real, p: real)
    requires p > 0.0 && a * p - 0.5 <= m <= a * p + 0.5
    ensures a - 0.5 / p <= m / p <= a + 0.5 / p
  {
    assert m / p - a == (m - a * p) / p;
    assert (m - a * p) / p <= 0.5 / p by {
      assert 0.5 / p - (m - a * p) / p == (0.5 - (m - a * p)) / p;
    }
    assert (m - a * p) / p >= -0.5 / p by {
      assert (m - a * p) / p + 0.5 / p == ((m - a * p) + 0.5) / p;
    }
  }
}
